=== FILE: README.md ===
# pytolino token core, in Dafny

A model of the client for the tolino e-book cloud (`src/pytolino/tolino_cloud.py`),
restricted to what the client decides by itself:

- **Partner lookup.** `Client(server_name)` refuses a partner missing from the servers
  settings. Otherwise it starts with its four token fields (access token, refresh token,
  token expiry, hardware id) unset and keeps that partner's settings table.
- **Token store.** `store_token` writes refresh token, hardware id, `expires_in`, access
  token and a timestamp under an account name, in a persistent per-account box. It is
  modelled as the class `TokenBox` holding a `map<string, TokenRecord>`, last write wins.
- **Restore and refresh.** `retrieve_token` fails when nothing is stored under the name, or
  when `now > timestamp + expires_in`. Otherwise it copies refresh token, hardware id and
  access token into the client. `get_new_token` restores, sends one refresh grant with the
  restored refresh token and, on an ok reply, takes the new tokens and stores them again
  under the same account name.
- **Resource-call helpers.** These are the default name, extension and MIME type of
  `upload`, the cover MIME type of `add_cover`, the concatenation in `get_inventory` and
  the metadata merge loop of `upload_metadata`.

`Client` is a class whose methods update its fields in place. `Client.RetrieveToken` and
`Client.GetNewToken` are each proved equal to a pure function of the old state
(`Restore`, `Refresh`), and the lemmas state the properties of those functions. Python
exceptions are `Fail`/`Failure` values of the datatype `Error`; `IsPytolinoException`
tells the client's own exceptions from Python's.

Inputs that stand for the outside world:

- the servers settings, a `map` from partner name to its settings table;
- the clock: `now` for the expiry check, `storeTime` for the timestamp `store_token` takes
  inside `get_new_token`;
- the token endpoint, a total function from the refresh-grant form to an optional reply
  (`None` is a reply that is not ok);
- each resource reply, a value: not ok, not JSON, missing a key, or the parsed body. For
  `upload_metadata` the body may also be JSON of another shape than an object.

Notes on what the code does:

- Only one lifetime is kept. `retrieve_token` treats the stored `expires_in` as the refresh
  token's lifetime (`tolino_cloud.py:107-109`). `get_new_token` stores the access token's
  `expires_in` there (`:150`, `:154`). `RefreshThenRestore` states the consequence: after a
  refresh, the record restores only until `storeTime + expires_in` of the access token.
- Restoring an expired record raises `ExpirationError`; it does not report a state.
- A refresh whose exchange is not ok still leaves the client holding the tokens it
  restored just before (`RefreshRejectedStoresNothing`). Only the store is untouched.
- Refresh-token rotation is not checked: the client keeps whatever refresh token the
  server returns.

## Model

| member | source | states |
|---|---|---|
| `TolinoCloud.Client.Open` | src/pytolino/tolino_cloud.py:74-89 | fails with `UnknownPartner` exactly when the name is not in the servers settings; otherwise a fresh client with all four token fields `None`, holding that partner's settings |
| `TolinoCloud.Client.constructor` | src/pytolino/tolino_cloud.py:81-89 | a new client has all four token fields unset and keeps the given settings and name |
| `TolinoCloud.Client.StoreToken` | src/pytolino/tolino_cloud.py:41-62 | the record under the account name becomes exactly the given five values with timestamp `now`; every other account keeps its record |
| `TolinoCloud.Client.RetrieveToken` | src/pytolino/tolino_cloud.py:91-113 | outcome and new token fields are those of `Restore` on the old fields; on failure the fields are unchanged |
| `TolinoCloud.Restore` | src/pytolino/tolino_cloud.py:102-113 | `NoStoredToken` iff nothing is stored under the name; `TokenExpired`, the one `ExpirationError`, iff `now > timestamp + expires_in`; on success refresh token, hardware id and access token are the stored ones and the expiry field is untouched |
| `TolinoCloud.Refresh` | src/pytolino/tolino_cloud.py:115-157 | succeeds iff a record is stored under the name, it has not expired at `now`, and the endpoint answers the refresh grant carrying its refresh token; every modelled failure leaves the store unchanged and is a `PytolinoException`; a success adds no account but the one refreshed (its further properties are the `Refresh…` lemmas below) |
| `TolinoCloud.RefreshRequest` | src/pytolino/tolino_cloud.py:127-132 | the posted form is the `webreader` client's `refresh_token` grant with scope `SCOPE_BOSH`, carrying the given refresh token |
| `TolinoCloud.TokenBox.constructor` | src/pytolino/tolino_cloud.py:103-105 | the store before any account has been written: an account never written restores to `NoStoredToken` |
| `TolinoCloud.Client.GetNewToken` | src/pytolino/tolino_cloud.py:115-157 | outcome, new token fields and new store are exactly those of `Refresh` on the old fields and store |
| `TolinoCloud.StoreThenRestore` | src/pytolino/tolino_cloud.py:57-62 | storing and then restoring the same name, not later than `timestamp + expires_in`, yields the stored refresh token, hardware id and access token, with the expiry field unchanged |
| `TolinoCloud.StoreKeepsOtherAccounts` | src/pytolino/tolino_cloud.py:57 | storing under one account name does not change what any other name restores to |
| `TolinoCloud.ExpiryBoundary` | src/pytolino/tolino_cloud.py:106-109 | the comparison is strict: restoring at exactly `timestamp + expires_in` succeeds, one second later raises `ExpirationError` |
| `TolinoCloud.ExpiryIsPermanent` | src/pytolino/tolino_cloud.py:106-109 | a record that is expired at some time is expired at every later time |
| `TolinoCloud.RestoreConsistent` | src/pytolino/tolino_cloud.py:111-113 | from any token state, a successful restore leaves access token, refresh token and hardware id all set, and a set expiry only alongside them |
| `TolinoCloud.RestoreFailureSkipsExchange` | src/pytolino/tolino_cloud.py:122 | when restoring fails the refresh fails with the same error, changes nothing, and does not depend on the token endpoint or the clock of the store |
| `TolinoCloud.RefreshSendsStoredToken` | src/pytolino/tolino_cloud.py:127-140 | the only request is the `webreader` refresh grant carrying the stored refresh token: endpoints that answer it alike give identical results |
| `TolinoCloud.RefreshRejectedStoresNothing` | src/pytolino/tolino_cloud.py:141-145 | a reply that is not ok raises `TokenRequestFailed`, stores nothing and leaves the restored tokens in the client |
| `TolinoCloud.RefreshFailureKeepsStore` | src/pytolino/tolino_cloud.py:115-145 | every modelled failure (the restore fails, or the reply is not ok) leaves the store unchanged and raises a `PytolinoException` |
| `TolinoCloud.RefreshSuccess` | src/pytolino/tolino_cloud.py:146-157 | a successful refresh holds the reply's access token, refresh token and `expires_in` with the old hardware id, and stores them with `storeTime` under the same name, other names untouched |
| `TolinoCloud.RefreshThenRestore` | src/pytolino/tolino_cloud.py:147-157 | after a successful refresh, a later restore of the same name succeeds iff it comes no later than `storeTime` plus the access token's `expires_in`, and then yields the new tokens |
| `TolinoCloud.RefreshConsistent` | src/pytolino/tolino_cloud.py:147-150 | a refresh keeps the token fields consistent, and a successful one sets the expiry |
| `TolinoCloud.RunConsistent` | src/pytolino/tolino_cloud.py:41-157 | over any sequence of `store_token`, `retrieve_token` and `get_new_token` calls, failures caught, a consistent client stays consistent |
| `TolinoCloud.ReachableConsistent` | src/pytolino/tolino_cloud.py:81-84 | every client reached from a new one by such calls has access token, refresh token and hardware id set or unset together, and an expiry only alongside them |
| `TolinoCloud.GetInventory` | src/pytolino/tolino_cloud.py:197-219 | a reply that is not ok, not JSON or missing a key raises a `PytolinoException`; otherwise the uploaded books in order followed by the purchased ones, no more and no fewer |
| `TolinoCloud.UploadMime` | src/pytolino/tolino_cloud.py:316-319 | `application/epub+zip` iff the lower-cased extension is `epub`, `application/pdf` for every other extension |
| `TolinoCloud.UploadDefaults` | src/pytolino/tolino_cloud.py:311-319 | a given name is kept; the default name is the suffix of the path after its last `/` (the whole path without one); the MIME type is that of the given extension, or of the piece after the last `.` of the whole path |
| `TolinoCloud.CoverImageMime` | src/pytolino/tolino_cloud.py:392-396 | `image/png` iff the lower-cased extension is `png`, `image/jpeg` iff it is `jpeg` or `jpg`, `application/jpeg` otherwise |
| `TolinoCloud.CoverMime` | src/pytolino/tolino_cloud.py:389-396 | without `file_ext` the MIME type of the piece after the last `.`; with `file_ext` always `UnboundLocalError`, which is not a `PytolinoException` |
| `TolinoCloud.CoverExtArgumentRaises` | src/pytolino/tolino_cloud.py:384-390 | the documented use, a path without extension plus `file_ext='png'`, raises in the code and gives `image/png` in the corrected definition |
| `TolinoCloud.CoverMimeFixed` | src/pytolino/tolino_cloud.py:384-396 | a given `file_ext` decides the MIME type; without one it agrees with the code as written |
| `TolinoCloud.MergeMetadata` | src/pytolino/tolino_cloud.py:280-281 | the keys are the old ones plus the supplied ones; supplied keys take the new value, all other keys keep theirs (the right-biased union) |
| `TolinoCloud.UploadMetadata` | src/pytolino/tolino_cloud.py:266-299 | a body that is not JSON raises before the status is looked at; a fetch that is not ok raises; a body that is not an object raises `TypeError`; a missing `metadata` key raises `KeyError`; metadata that is not an object raises `TypeError` when there are values to write and is put unchanged when there are none; otherwise the metadata with exactly the new keys overwritten is put; once something is put, the outcome follows the put's status |
| `PyStr.Split` | src/pytolino/tolino_cloud.py:312-314 | `str.split` with a one-character separator: at least one piece, no piece holds the separator, and joining the pieces with it gives back the string |
| `PyStr.LastPiece` | src/pytolino/tolino_cloud.py:312-314 | `split(sep)[-1]` is the suffix after the last separator, or the whole string when it holds none |
| `PyStr.DictGet` | src/pytolino/tolino_cloud.py:316-319 | `dict.get`: the stored value when the key is present, the default otherwise |
| `PyStr.Lower` | src/pytolino/tolino_cloud.py:319 | same length, no ASCII capital left, capitals moved to their small letter and every other character kept |

## Left out

- HTTP traffic: sessions, headers, payload encoding, browser impersonation. The token
  endpoint and the resource replies are inputs, and the url each request goes to is not
  modelled.
- The persistent storage library behind `store_token`: it is modelled as an in-memory map.
- Loading the servers settings from TOML and `main()`'s printing. The settings are a given
  map of string tables, so non-string TOML values are not modelled.
- Missing settings keys: the lookups `self._server_settings['token_url']` (`:134`), and those of
  `inventory_url`, `meta_url`, `upload_url`, `cover_url`, `delete_url`, `sync_data_url` and
  `partner_id`, raise `KeyError` when a partner's table lacks the key. `Client.Open` accepts any
  table, so `Refresh` models an exchange where the code would raise at `:134`, after the restore.
- Logging: the `logging` calls at `:143-144` and `:158` write messages only and are left out.
- Transport errors: connection failures and timeouts raised by the HTTP sessions (`:133-140`,
  `:187`, `:242`, `:267`, `:287`, `:321`, `:358`, `:398`) are not modelled; they propagate as the
  HTTP library's own exceptions, not as a `PytolinoException`.
- Wall-clock time: `time.time()` is a float; the model takes integer seconds as inputs.
- `login`, `logout`, `register`, `unregister`: they only raise `NotImplementedError`.
- `delete_ebook`, `add_to_collection`, the file opening in `upload` and `add_cover`, and
  `upload`'s reply handling (a reply that is not ok, not JSON or missing the id raises
  `PytolinoException`): request plumbing with no decision of the client's own.
- The `refresh_token` and `hardware_id` properties: they are plain reads of the fields.
- TolinoCloud.Client.GetNewToken: an ok token reply that is not JSON, misses a key, or whose
  `expires_in` `int()` cannot convert (null, a list, a non-numeric string) is not modelled. The
  code then raises Python's own error: at `:147-148` with only the restored tokens held, at
  `:149` after overwriting the access token, at `:150` after overwriting both tokens. A float
  `expires_in` is truncated by `int()` and a numeric string is parsed; the model represents
  either as the reply's integer.
- TolinoCloud.GetInventory: a JSON body of the wrong shape (not an object, or `null` where a
  list or object is expected) is not modelled. The code then raises Python's `TypeError`,
  which the `except KeyError` at `:212` does not catch; two string values would even be
  concatenated and returned.
- PyStr.Lower: only ASCII letters are lower-cased. No other Unicode character lower-cases to a
  letter of `epub`, `pdf`, `png`, `jpeg` or `jpg`, so the MIME choices are as in the code.
- TolinoCloud.MergeMetadata: the new keys are taken in an arbitrary order rather than the dict's
  insertion order. The keys are distinct, so the result is the same.

## Findings

| source | as written | input that shows it | evidently intended | confidence | as-written member | corrected member |
|---|---|---|---|---|---|---|
| src/pytolino/tolino_cloud.py:389-396 | `ext` is bound only when `file_ext` is `None`, so passing `file_ext` raises `UnboundLocalError` at the MIME lookup | `add_cover(book_id, 'cover', file_ext='png')` | use `file_ext` as the extension when given, as its docstring says (`:384-385`) | high, not executed | `TolinoCloud.CoverMime` (with `TolinoCloud.CoverExtArgumentRaises`) | `TolinoCloud.CoverMimeFixed` |

=== FILE: pystr.dfy ===
/** The parts of Python's `str` and `dict` that the client relies on. */
module PyStr {

  /** `sep.join(parts)` for a one-character separator. */
  function Join(parts: seq<string>, sep: char): string
    requires |parts| >= 1
  {
    if |parts| == 1 then parts[0]
    else Join(parts[..|parts| - 1], sep) + [sep] + parts[|parts| - 1]
  }

  /**
   * `s.split(sep)` for a one-character separator: the pieces between
   * separators, in order, including empty ones. Built from the end of `s`.
   */
  function Split(s: string, sep: char): (parts: seq<string>)
    ensures |parts| >= 1
    ensures forall i :: 0 <= i < |parts| ==> sep !in parts[i]
    ensures Join(parts, sep) == s
    decreases |s|
  {
    if s == [] then [[]]
    else
      var init := Split(s[..|s| - 1], sep);
      var c := s[|s| - 1];
      assert s == s[..|s| - 1] + [c];
      if c == sep then
        var parts := init + [[]];
        assert parts[..|parts| - 1] == init;
        parts
      else
        var n := |init|;
        var parts := init[..n - 1] + [init[n - 1] + [c]];
        assert n > 1 ==> parts[..n - 1] == init[..n - 1];
        parts
  }

  /**
   * `s.split(sep)[-1]`: the piece after the last separator, or the whole of
   * `s` when it holds no separator.
   */
  function LastPiece(s: string, sep: char): (p: string)
    ensures |p| <= |s| && p == s[|s| - |p|..]
    ensures sep !in p
    ensures p == s || s[|s| - |p| - 1] == sep
    ensures sep !in s ==> p == s
  {
    var parts := Split(s, sep);
    var n := |parts|;
    var p := parts[n - 1];
    if n == 1 then p
    else
      assert s == Join(parts[..n - 1], sep) + [sep] + p;
      p
  }

  /** True for the ASCII capital letters, the only ones `LowerChar` changes. */
  predicate IsUpper(c: char) {
    'A' <= c <= 'Z'
  }

  function LowerChar(c: char): char {
    if IsUpper(c) then (c as int + 32) as char else c
  }

  /**
   * `s.lower()` restricted to ASCII letters; other characters are kept as
   * they are.
   */
  function Lower(s: string): (r: string)
    ensures |r| == |s|
    ensures forall i :: 0 <= i < |r| ==> !IsUpper(r[i])
    ensures forall i :: 0 <= i < |s| && !IsUpper(s[i]) ==> r[i] == s[i]
    ensures forall i :: 0 <= i < |s| && IsUpper(s[i]) ==> r[i] as int == s[i] as int + 32
  {
    seq(|s|, i requires 0 <= i < |s| => LowerChar(s[i]))
  }

  /** `m.get(key, default)`. */
  function DictGet(m: map<string, string>, key: string, default: string): (v: string)
    ensures key in m ==> v == m[key]
    ensures key !in m ==> v == default
  {
    if key in m then m[key] else default
  }
}

=== FILE: tolino_cloud.dfy ===
/**
 * The token bookkeeping of the tolino cloud client and the pure parts of its
 * resource calls. Every HTTP exchange is an input: the token endpoint is a
 * function from request to reply, and each resource reply is a value.
 */
module TolinoCloud {
  import opened Wrappers
  import opened PyStr

  // ---------------------------------------------------------------------
  // Errors
  // ---------------------------------------------------------------------

  /** What the client raises; the last four are Python's own exceptions, not a `PytolinoException`. */
  datatype Error =
    | UnknownPartner(serverName: string)  // partner missing from the settings
    | NoStoredToken                       // no refresh token stored under the account name
    | TokenExpired                        // `ExpirationError`
    | TokenRequestFailed                  // the refresh exchange was not ok
    | InventoryFailed                     // inventory reply not ok, not JSON or missing keys
    | MetadataUploadFailed                // metadata fetch or put not ok
    | UnboundExt                          // `UnboundLocalError` in `add_cover`
    | JsonDecodeError                     // a body that is not JSON, where it is not caught
    | KeyError                            // a JSON body missing a key, where it is not caught
    | TypeError                           // a JSON value of the wrong type, indexed or written into
  {
    predicate IsPytolinoException() {
      !UnboundExt? && !JsonDecodeError? && !KeyError? && !TypeError?
    }

    predicate IsExpirationError() {
      TokenExpired?
    }
  }

  // ---------------------------------------------------------------------
  // Partner registry
  // ---------------------------------------------------------------------

  /** One partner's table of the servers settings: endpoint urls, partner id. */
  type PartnerSettings = map<string, string>

  /** The servers settings, loaded once: partner name to its settings. */
  type Registry = map<string, PartnerSettings>

  const DefaultServerName: string := "orellfuessli"

  // ---------------------------------------------------------------------
  // Token store
  // ---------------------------------------------------------------------

  /** The five values `store_token` writes for one account name. */
  datatype TokenRecord = TokenRecord(
    refreshToken: string,
    hardwareId: string,
    expiresIn: int,
    timestamp: int,
    accessToken: string)

  /** Account name to the last record stored under it. */
  type Store = map<string, TokenRecord>

  /** A record is expired at `now` when `now` is strictly after `timestamp + expiresIn`. */
  predicate Expired(rec: TokenRecord, now: int) {
    now > rec.timestamp + rec.expiresIn
  }

  /** The persistent per-account key-value box of the application. */
  class TokenBox {
    var records: Store

    constructor ()
      ensures records == map[]
    {
      records := map[];
    }
  }

  // ---------------------------------------------------------------------
  // Token state and its transitions, as values
  // ---------------------------------------------------------------------

  /** The client's four token fields; `None` until set. */
  datatype TokenState = TokenState(
    accessToken: Option<string>,
    refreshToken: Option<string>,
    tokenExpires: Option<int>,
    hardwareId: Option<string>)

  const Unset: TokenState := TokenState(None, None, None, None)

  /**
   * The shape every reachable token state has: access token, refresh token
   * and hardware id are set together, and an expiry is known only once they are.
   */
  predicate Consistent(t: TokenState) {
    && t.accessToken.Some? == t.refreshToken.Some?
    && t.refreshToken.Some? == t.hardwareId.Some?
    && (t.tokenExpires.Some? ==> t.refreshToken.Some?)
  }

  /**
   * `retrieve_token`: the token state after restoring `accountName` at `now`,
   * or the exception raised, in which case nothing changes.
   */
  function Restore(t: TokenState, store: Store, accountName: string, now: int): (r: Result<TokenState, Error>)
    ensures r == Failure(NoStoredToken) <==> accountName !in store
    ensures accountName in store ==> (r == Failure(TokenExpired) <==> Expired(store[accountName], now))
    ensures r.Success? <==> accountName in store && !Expired(store[accountName], now)
    ensures r.Failure? ==> r.error.IsPytolinoException()
    ensures (r.Failure? && r.error.IsExpirationError()) <==> accountName in store && Expired(store[accountName], now)
    ensures r.Success? ==>
      var rec := store[accountName];
      && r.value.refreshToken == Some(rec.refreshToken)
      && r.value.hardwareId == Some(rec.hardwareId)
      && r.value.accessToken == Some(rec.accessToken)
      && r.value.tokenExpires == t.tokenExpires
  {
    if accountName !in store then Failure(NoStoredToken)
    else
      var rec := store[accountName];
      if now > rec.timestamp + rec.expiresIn then Failure(TokenExpired)
      else Success(t.(refreshToken := Some(rec.refreshToken),
                      hardwareId := Some(rec.hardwareId),
                      accessToken := Some(rec.accessToken)))
  }

  /** The form body of a refresh-token grant. */
  datatype TokenRequest = TokenRequest(clientId: string, grantType: string, refreshToken: string, scope: string)

  /** The fields read from an ok reply of the token endpoint. */
  datatype TokenReply = TokenReply(accessToken: string, refreshToken: string, expiresIn: int)

  /** The token endpoint: `None` is a reply that is not ok. */
  type Exchange = TokenRequest -> Option<TokenReply>

  /** The form `get_new_token` posts: the web reader's refresh grant carrying `refreshToken`. */
  function RefreshRequest(refreshToken: string): (req: TokenRequest)
    ensures req.refreshToken == refreshToken
    ensures req.grantType == "refresh_token" && req.clientId == "webreader" && req.scope == "SCOPE_BOSH"
  {
    TokenRequest("webreader", "refresh_token", refreshToken, "SCOPE_BOSH")
  }

  /** What a step of the client yields: its outcome, its token state and the store. */
  datatype Step = Step(outcome: Outcome<Error>, tokens: TokenState, store: Store)

  /**
   * `get_new_token`: restore `accountName` at `now`, send one refresh grant
   * with the restored refresh token, and on an ok reply take the new tokens
   * and store them again at `storeTime`.
   */
  function Refresh(t: TokenState, store: Store, accountName: string, now: int,
                   exchange: Exchange, storeTime: int): (st: Step)
    ensures st.outcome.Pass? <==>
      && accountName in store
      && !Expired(store[accountName], now)
      && exchange(RefreshRequest(store[accountName].refreshToken)).Some?
    ensures st.outcome.Fail? ==> st.store == store && st.outcome.error.IsPytolinoException()
    ensures st.outcome.Pass? ==> st.store.Keys == store.Keys + {accountName}
  {
    match Restore(t, store, accountName, now)
    case Failure(e) => Step(Fail(e), t, store)
    case Success(restored) =>
      match exchange(RefreshRequest(restored.refreshToken.value))
      case None => Step(Fail(TokenRequestFailed), restored, store)
      case Some(reply) =>
        var tokens := restored.(accessToken := Some(reply.accessToken),
                                refreshToken := Some(reply.refreshToken),
                                tokenExpires := Some(reply.expiresIn));
        var rec := TokenRecord(reply.refreshToken, restored.hardwareId.value,
                               reply.expiresIn, storeTime, reply.accessToken);
        Step(Pass, tokens, store[accountName := rec])
  }

  // ---------------------------------------------------------------------
  // The client
  // ---------------------------------------------------------------------

  class Client {
    var accessToken: Option<string>
    var refreshToken: Option<string>
    var tokenExpires: Option<int>
    var hardwareId: Option<string>
    const serverSettings: PartnerSettings
    const serverName: string

    function Tokens(): TokenState
      reads this
    {
      TokenState(accessToken, refreshToken, tokenExpires, hardwareId)
    }

    /** A client for a partner whose settings have been found. */
    constructor (serverName: string, settings: PartnerSettings)
      ensures Tokens() == Unset
      ensures this.serverSettings == settings && this.serverName == serverName
    {
      accessToken, refreshToken, tokenExpires, hardwareId := None, None, None, None;
      this.serverSettings := settings;
      this.serverName := serverName;
    }

    /**
     * `Client(server_name)`: unknown partners are rejected; otherwise a new
     * client with no tokens, holding that partner's settings.
     */
    static method Open(registry: Registry, serverName: string := DefaultServerName)
      returns (r: Result<Client, Error>)
      ensures r.Failure? <==> serverName !in registry
      ensures r.Failure? ==> r.error == UnknownPartner(serverName) && r.error.IsPytolinoException()
      ensures r.Success? ==>
        && fresh(r.value)
        && r.value.Tokens() == Unset
        && r.value.serverSettings == registry[serverName]
        && r.value.serverName == serverName
    {
      if serverName !in registry {
        return Failure(UnknownPartner(serverName));
      }
      var c := new Client(serverName, registry[serverName]);
      return Success(c);
    }

    /**
     * `Client.store_token`: overwrite the record of `accountName` with the
     * given values and the time `now`; other accounts keep theirs.
     */
    static method StoreToken(box: TokenBox, now: int, accountName: string, refreshToken: string,
                             expiresIn: int, hardwareId: string, accessToken: string := "")
      modifies box
      ensures box.records ==
        old(box.records)[accountName := TokenRecord(refreshToken, hardwareId, expiresIn, now, accessToken)]
    {
      var rec := TokenRecord(refreshToken, hardwareId, expiresIn, now, accessToken);
      box.records := box.records[accountName := rec];
    }

    /**
     * `retrieve_token`: copy refresh token, hardware id and access token of
     * the record of `accountName` into the client, unless there is none or
     * it has expired at `now`; `tokenExpires` is never touched.
     */
    method RetrieveToken(box: TokenBox, accountName: string, now: int) returns (r: Outcome<Error>)
      modifies this
      ensures match Restore(old(Tokens()), box.records, accountName, now)
              case Failure(e) => r == Fail(e) && Tokens() == old(Tokens())
              case Success(t) => r == Pass && Tokens() == t
    {
      if accountName !in box.records {
        return Fail(NoStoredToken);
      }
      var rec := box.records[accountName];
      var expirationTime := rec.timestamp + rec.expiresIn;
      if now > expirationTime {
        return Fail(TokenExpired);
      }
      refreshToken := Some(rec.refreshToken);
      hardwareId := Some(rec.hardwareId);
      accessToken := Some(rec.accessToken);
      return Pass;
    }

    /**
     * `get_new_token`: restore `accountName`, ask `exchange` for new tokens
     * and, when it answers, keep them and store them again at `storeTime`.
     */
    method GetNewToken(box: TokenBox, accountName: string, now: int, exchange: Exchange, storeTime: int)
      returns (r: Outcome<Error>)
      modifies this, box
      ensures var st := Refresh(old(Tokens()), old(box.records), accountName, now, exchange, storeTime);
              r == st.outcome && Tokens() == st.tokens && box.records == st.store
    {
      r := RetrieveToken(box, accountName, now);
      if r.Fail? {
        return;
      }
      var reply := exchange(RefreshRequest(refreshToken.value));
      if reply.None? {
        return Fail(TokenRequestFailed);
      }
      accessToken := Some(reply.value.accessToken);
      refreshToken := Some(reply.value.refreshToken);
      tokenExpires := Some(reply.value.expiresIn);
      StoreToken(box, storeTime, accountName, refreshToken.value, tokenExpires.value,
                 hardwareId.value, accessToken.value);
    }
  }

  // ---------------------------------------------------------------------
  // Properties of the token transitions
  // ---------------------------------------------------------------------

  /** Storing and then restoring the same account gives back the stored tokens. */
  lemma StoreThenRestore(t: TokenState, store: Store, accountName: string, refreshToken: string,
                         hardwareId: string, expiresIn: int, storedAt: int, accessToken: string, now: int)
    requires now <= storedAt + expiresIn
    ensures Restore(t, store[accountName := TokenRecord(refreshToken, hardwareId, expiresIn, storedAt, accessToken)],
                    accountName, now)
         == Success(TokenState(Some(accessToken), Some(refreshToken), t.tokenExpires, Some(hardwareId)))
  {
  }

  /** Storing under one account name does not change what another restores to. */
  lemma StoreKeepsOtherAccounts(t: TokenState, store: Store, accountName: string, rec: TokenRecord,
                                other: string, now: int)
    requires other != accountName
    ensures Restore(t, store[accountName := rec], other, now) == Restore(t, store, other, now)
  {
  }

  /** The expiry comparison is strict: the last valid second still restores, the next does not. */
  lemma ExpiryBoundary(t: TokenState, store: Store, accountName: string)
    requires accountName in store
    ensures var rec := store[accountName];
            && Restore(t, store, accountName, rec.timestamp + rec.expiresIn).Success?
            && Restore(t, store, accountName, rec.timestamp + rec.expiresIn + 1) == Failure(TokenExpired)
            && Restore(t, store, accountName, rec.timestamp + rec.expiresIn + 1).error.IsExpirationError()
  {
  }

  /** Once a record has expired it stays expired. */
  lemma ExpiryIsPermanent(t: TokenState, store: Store, accountName: string, now: int, later: int)
    requires now <= later
    requires Restore(t, store, accountName, now) == Failure(TokenExpired)
    ensures Restore(t, store, accountName, later) == Failure(TokenExpired)
  {
  }

  /** A successful restore makes any token state consistent. */
  lemma RestoreConsistent(t: TokenState, store: Store, accountName: string, now: int)
    ensures var r := Restore(t, store, accountName, now);
            r.Success? ==> Consistent(r.value)
  {
  }

  /** When restoring fails, no exchange is made: the endpoint and the store time play no part. */
  lemma RestoreFailureSkipsExchange(t: TokenState, store: Store, accountName: string, now: int,
                                    exchange1: Exchange, storeTime1: int,
                                    exchange2: Exchange, storeTime2: int)
    requires Restore(t, store, accountName, now).Failure?
    ensures Refresh(t, store, accountName, now, exchange1, storeTime1)
         == Refresh(t, store, accountName, now, exchange2, storeTime2)
         == Step(Fail(Restore(t, store, accountName, now).error), t, store)
  {
  }

  /**
   * The only request made is a refresh grant carrying the stored refresh
   * token: two endpoints that answer it alike give the same step.
   */
  lemma RefreshSendsStoredToken(t: TokenState, store: Store, accountName: string, now: int,
                                exchange1: Exchange, exchange2: Exchange, storeTime: int)
    requires accountName in store
    requires exchange1(RefreshRequest(store[accountName].refreshToken))
          == exchange2(RefreshRequest(store[accountName].refreshToken))
    ensures Refresh(t, store, accountName, now, exchange1, storeTime)
         == Refresh(t, store, accountName, now, exchange2, storeTime)
  {
  }

  /**
   * A refresh whose exchange is not ok raises `TokenRequestFailed` and
   * stores nothing; the client is left with the restored tokens.
   */
  lemma RefreshRejectedStoresNothing(t: TokenState, store: Store, accountName: string, now: int,
                                     exchange: Exchange, storeTime: int)
    requires Restore(t, store, accountName, now).Success?
    requires exchange(RefreshRequest(store[accountName].refreshToken)).None?
    ensures var st := Refresh(t, store, accountName, now, exchange, storeTime);
            && st.outcome == Fail(TokenRequestFailed)
            && st.outcome.error.IsPytolinoException()
            && st.store == store
            && st.tokens == Restore(t, store, accountName, now).value
  {
  }

  /** Whatever way a refresh fails, the store is unchanged. */
  lemma RefreshFailureKeepsStore(t: TokenState, store: Store, accountName: string, now: int,
                                 exchange: Exchange, storeTime: int)
    ensures var st := Refresh(t, store, accountName, now, exchange, storeTime);
            st.outcome.Fail? ==> st.store == store && st.outcome.error.IsPytolinoException()
  {
  }

  /**
   * A successful refresh holds the reply's tokens and lifetime in memory and
   * stores them, the unchanged hardware id and `storeTime` under the same
   * account name; other accounts are untouched.
   */
  lemma RefreshSuccess(t: TokenState, store: Store, accountName: string, now: int,
                       exchange: Exchange, storeTime: int)
    requires Refresh(t, store, accountName, now, exchange, storeTime).outcome.Pass?
    ensures accountName in store
    ensures var old_ := store[accountName];
            var reply := exchange(RefreshRequest(old_.refreshToken));
            var st := Refresh(t, store, accountName, now, exchange, storeTime);
            && reply.Some?
            && st.tokens == TokenState(Some(reply.value.accessToken), Some(reply.value.refreshToken),
                                       Some(reply.value.expiresIn), Some(old_.hardwareId))
            && st.store == store[accountName := TokenRecord(reply.value.refreshToken, old_.hardwareId,
                                                            reply.value.expiresIn, storeTime,
                                                            reply.value.accessToken)]
  {
  }

  /**
   * After a successful refresh, restoring the same account at `later` gives
   * the new tokens exactly while `later <= storeTime + expires_in` of the
   * reply: the access token's lifetime is what bounds the stored record.
   */
  lemma RefreshThenRestore(t: TokenState, store: Store, accountName: string, now: int,
                           exchange: Exchange, storeTime: int, t': TokenState, later: int)
    requires Refresh(t, store, accountName, now, exchange, storeTime).outcome.Pass?
    ensures var st := Refresh(t, store, accountName, now, exchange, storeTime);
            var reply := exchange(RefreshRequest(store[accountName].refreshToken)).value;
            var r := Restore(t', st.store, accountName, later);
            && (r.Success? <==> later <= storeTime + reply.expiresIn)
            && (r.Success? ==>
                  && r.value.accessToken == st.tokens.accessToken
                  && r.value.refreshToken == st.tokens.refreshToken
                  && r.value.hardwareId == st.tokens.hardwareId)
  {
    RefreshSuccess(t, store, accountName, now, exchange, storeTime);
  }

  /** A refresh keeps a consistent token state consistent, and a successful one sets the expiry. */
  lemma RefreshConsistent(t: TokenState, store: Store, accountName: string, now: int,
                          exchange: Exchange, storeTime: int)
    requires Consistent(t)
    ensures var st := Refresh(t, store, accountName, now, exchange, storeTime);
            && Consistent(st.tokens)
            && (st.outcome.Pass? ==> st.tokens.tokenExpires.Some?)
  {
  }

  /** One call on a client and its token box, with its inputs from the outside world. */
  datatype Call =
    | StoreCall(now: int, accountName: string, record: TokenRecord)
    | RetrieveCall(accountName: string, now: int)
    | GetNewTokenCall(accountName: string, now: int, exchange: Exchange, storeTime: int)

  /**
   * The token fields and the store after a sequence of calls, each failure
   * caught by the caller, who goes on with the next call.
   */
  function Run(t: TokenState, store: Store, calls: seq<Call>): (TokenState, Store)
    decreases |calls|
  {
    if calls == [] then (t, store)
    else
      match calls[0]
      case StoreCall(now, name, rec) =>
        Run(t, store[name := rec.(timestamp := now)], calls[1..])
      case RetrieveCall(name, now) =>
        var r := Restore(t, store, name, now);
        Run(if r.Success? then r.value else t, store, calls[1..])
      case GetNewTokenCall(name, now, exchange, storeTime) =>
        var st := Refresh(t, store, name, now, exchange, storeTime);
        Run(st.tokens, st.store, calls[1..])
  }

  /**
   * Whatever calls are made on a new client, its access token, refresh token
   * and hardware id stay set or unset together, and an expiry is only ever
   * held alongside them.
   */
  lemma {:induction false} RunConsistent(t: TokenState, store: Store, calls: seq<Call>)
    requires Consistent(t)
    ensures Consistent(Run(t, store, calls).0)
    decreases |calls|
  {
    if calls != [] {
      match calls[0]
      case StoreCall(now, name, rec) =>
        RunConsistent(t, store[name := rec.(timestamp := now)], calls[1..]);
      case RetrieveCall(name, now) =>
        var r := Restore(t, store, name, now);
        RestoreConsistent(t, store, name, now);
        RunConsistent(if r.Success? then r.value else t, store, calls[1..]);
      case GetNewTokenCall(name, now, exchange, storeTime) =>
        var st := Refresh(t, store, name, now, exchange, storeTime);
        RefreshConsistent(t, store, name, now, exchange, storeTime);
        RunConsistent(st.tokens, st.store, calls[1..]);
    }
  }

  /** A new client is consistent, so every client reachable by calls is. */
  lemma ReachableConsistent(store: Store, calls: seq<Call>)
    ensures Consistent(Run(Unset, store, calls).0)
  {
    RunConsistent(Unset, store, calls);
  }

  // ---------------------------------------------------------------------
  // Pure parts of the resource calls
  // ---------------------------------------------------------------------

  /** A resource reply: not ok, a body that is not JSON, JSON missing a key, or the parsed body. */
  datatype Reply<T> = NotOk | BadJson | MissingKey | Body(value: T)

  /** The `PublicationInventory` object of an inventory reply. */
  datatype PublicationInventory<B> = PublicationInventory(edata: seq<B>, ebook: seq<B>)

  /**
   * `get_inventory`: the uploaded books followed by the purchased ones; any
   * faulty reply raises.
   */
  function GetInventory<B>(reply: Reply<PublicationInventory<B>>): (r: Result<seq<B>, Error>)
    ensures r.Success? <==> reply.Body?
    ensures r.Failure? ==> r.error == InventoryFailed && r.error.IsPytolinoException()
    ensures r.Success? ==>
      var inv := reply.value;
      && |r.value| == |inv.edata| + |inv.ebook|
      && (forall i :: 0 <= i < |inv.edata| ==> r.value[i] == inv.edata[i])
      && (forall j :: 0 <= j < |inv.ebook| ==> r.value[|inv.edata| + j] == inv.ebook[j])
      && multiset(r.value) == multiset(inv.edata) + multiset(inv.ebook)
  {
    match reply
    case Body(inv) => Success(inv.edata + inv.ebook)
    case _ => Failure(InventoryFailed)
  }

  /** The file part of an upload: the name it is sent under and its MIME type. */
  datatype UploadFile = UploadFile(name: string, mime: string)

  const UploadMimes: map<string, string> := map["pdf" := "application/pdf", "epub" := "application/epub+zip"]

  /** The MIME type `upload` sends for an extension. */
  function UploadMime(extension: string): (m: string)
    ensures m == "application/epub+zip" <==> Lower(extension) == "epub"
    ensures m != "application/epub+zip" ==> m == "application/pdf"
  {
    DictGet(UploadMimes, Lower(extension), "application/pdf")
  }

  /**
   * The defaults of `upload`: without a name, the last `/`-separated piece
   * of the path; without an extension, the last `.`-separated piece of the
   * whole path, which fixes the MIME type.
   */
  function UploadDefaults(filePath: string, name: Option<string>, extension: Option<string>): (f: UploadFile)
    ensures name.Some? ==> f.name == name.value
    ensures name.None? ==>
      && '/' !in f.name
      && |f.name| <= |filePath|
      && f.name == filePath[|filePath| - |f.name|..]
      && (f.name == filePath || filePath[|filePath| - |f.name| - 1] == '/')
    ensures var ext := extension.GetOr(LastPiece(filePath, '.'));
            f.mime == UploadMime(ext)
    ensures extension.None? && '.' !in filePath ==> f.mime == UploadMime(filePath)
  {
    var n := if name.Some? then name.value else LastPiece(filePath, '/');
    var ext := if extension.Some? then extension.value else LastPiece(filePath, '.');
    UploadFile(n, UploadMime(ext))
  }

  const CoverMimes: map<string, string> := map["png" := "image/png", "jpeg" := "image/jpeg", "jpg" := "image/jpeg"]

  /** The MIME type `add_cover` sends for an image extension. */
  function CoverImageMime(ext: string): (m: string)
    ensures m == "image/png" <==> Lower(ext) == "png"
    ensures m == "image/jpeg" <==> Lower(ext) == "jpeg" || Lower(ext) == "jpg"
    ensures m == "application/jpeg" <==> Lower(ext) !in CoverMimes
  {
    DictGet(CoverMimes, Lower(ext), "application/jpeg")
  }

  /**
   * `add_cover` as written: with no `file_ext` the extension is the last
   * `.`-separated piece of the path; with one, `ext` is never bound and the
   * lookup raises `UnboundLocalError`.
   */
  function CoverMime(filePath: string, fileExt: Option<string>): (r: Result<string, Error>)
    ensures r.Failure? <==> fileExt.Some?
    ensures r.Failure? ==> r.error == UnboundExt && !r.error.IsPytolinoException()
    ensures r.Success? ==> r.value == CoverImageMime(LastPiece(filePath, '.'))
  {
    if fileExt.None? then Success(CoverImageMime(LastPiece(filePath, '.')))
    else Failure(UnboundExt)
  }

  /** A cover path without an extension, given `file_ext` as documented, raises. */
  lemma CoverExtArgumentRaises()
    ensures CoverMime("cover", Some("png")) == Failure(UnboundExt)
    ensures CoverMimeFixed("cover", Some("png")) == "image/png"
  {
  }

  /**
   * `add_cover` as intended: a given `file_ext` decides the MIME type;
   * without one it agrees with the code as written.
   */
  function CoverMimeFixed(filePath: string, fileExt: Option<string>): (m: string)
    ensures fileExt.Some? ==> m == CoverImageMime(fileExt.value)
    ensures fileExt.None? ==> CoverMime(filePath, fileExt) == Success(m)
  {
    var ext := if fileExt.Some? then fileExt.value else LastPiece(filePath, '.');
    CoverImageMime(ext)
  }

  /**
   * The loop of `upload_metadata`: write each new key into the fetched
   * metadata, so that exactly the supplied keys are overwritten.
   */
  method MergeMetadata<V>(metadata: map<string, V>, newMetadata: map<string, V>) returns (merged: map<string, V>)
    ensures merged.Keys == metadata.Keys + newMetadata.Keys
    ensures forall k :: k in newMetadata ==> merged[k] == newMetadata[k]
    ensures forall k :: k in metadata && k !in newMetadata ==> merged[k] == metadata[k]
    ensures merged == metadata + newMetadata
  {
    merged := metadata;
    var pending := newMetadata.Keys;
    while pending != {}
      invariant pending <= newMetadata.Keys
      invariant merged.Keys == metadata.Keys + (newMetadata.Keys - pending)
      invariant forall k :: k in newMetadata && k !in pending ==> merged[k] == newMetadata[k]
      invariant forall k :: k in metadata && (k !in newMetadata || k in pending) ==> merged[k] == metadata[k]
      decreases pending
    {
      var key :| key in pending;
      merged := merged[key := newMetadata[key]];
      pending := pending - {key};
    }
  }

  /** The JSON value under the `metadata` key: an object, or any other JSON value. */
  datatype MetadataJson<V> = Object(entries: map<string, V>) | NonObject

  /**
   * The JSON body of a metadata fetch: not JSON, a JSON value that is not an
   * object, an object without a `metadata` key, or one with it.
   */
  datatype BookJson<V> = NotJson | NotObject | NoMetadata | Book(metadata: MetadataJson<V>)

  /**
   * `upload_metadata`: fetch the book (its body is decoded before the status
   * is looked at), write the new values into its metadata and put the result
   * back; `sent` is the metadata put, if any. Indexing a body that is not an
   * object, or writing into metadata that is not one, raises `TypeError`;
   * metadata that is not an object is put unchanged when there is nothing to write.
   */
  method UploadMetadata<V>(fetchOk: bool, fetched: BookJson<V>, newMetadata: map<string, V>, putOk: bool)
    returns (sent: Option<MetadataJson<V>>, r: Outcome<Error>)
    ensures fetched.NotJson? ==> sent == None && r == Fail(JsonDecodeError)
    ensures !fetched.NotJson? && !fetchOk ==> sent == None && r == Fail(MetadataUploadFailed)
    ensures fetched.NotObject? && fetchOk ==> sent == None && r == Fail(TypeError)
    ensures fetched.NoMetadata? && fetchOk ==> sent == None && r == Fail(KeyError)
    ensures fetched.Book? && fetched.metadata.NonObject? && fetchOk ==>
      if newMetadata == map[] then sent == Some(NonObject)
      else sent == None && r == Fail(TypeError)
    ensures fetched.Book? && fetched.metadata.Object? && fetchOk ==>
      sent == Some(Object(fetched.metadata.entries + newMetadata))
    ensures sent.Some? ==> (r.Pass? <==> putOk) && (r.Fail? ==> r.error == MetadataUploadFailed)
    ensures sent.None? ==> r.Fail?
  {
    if fetched.NotJson? {
      return None, Fail(JsonDecodeError);
    }
    if !fetchOk {
      return None, Fail(MetadataUploadFailed);
    }
    if fetched.NotObject? {
      return None, Fail(TypeError);
    }
    if fetched.NoMetadata? {
      return None, Fail(KeyError);
    }
    match fetched.metadata {
      case NonObject =>
        if newMetadata != map[] {
          return None, Fail(TypeError);
        }
        sent := Some(NonObject);
      case Object(entries) =>
        var merged := MergeMetadata(entries, newMetadata);
        sent := Some(Object(merged));
    }
    r := if putOk then Pass else Fail(MetadataUploadFailed);
  }
}

=== FILE: wrappers.dfy ===
/** Failure-carrying values used in place of Python's `None` and exceptions. */
module Wrappers {

  /** A value that may be absent, Python's `None`. */
  datatype Option<+T> = None | Some(value: T) {
    function GetOr(default: T): T {
      match this
      case Some(v) => v
      case None => default
    }
  }

  /** The value an operation returns, or the exception it raises. */
  datatype Result<+R, +E> = Success(value: R) | Failure(error: E)

  /** Completion of an operation that returns nothing, or the exception it raises. */
  datatype Outcome<+E> = Pass | Fail(error: E)
}
